=== FILE: README.md ===
# A verified model of the steno-custom write coordinator

`Writer` in `steno-custom.mjs` owns one file path. Many callers can repeatedly overwrite the whole file through it. Each `write(data)` either starts a *round* or, while the file is locked, is *coalesced*. A round opens the file with flag `'w'`, takes an exclusive `flock`, writes the payload, settles the waiter group of the previous round, unlocks and closes the file, and then chains one more round if a payload is pending. A coalesced write replaces the pending payload (last write wins). Its caller joins the shared promise of the pending group, and, when no other round is in flight, that promise settles when the *next* round writes.

The model is a Dafny class, `Steno.Writer` (writer.dfy). Its fields are the source's private fields: `fd`, `locked`, `prev`, `next` (which stands for `#next` and `#nextPromise` together, since the source always sets and clears the two together), and `nextData`. Two fields are the model's own bookkeeping: `content`, the file's bytes, and `opens`, the number of handles opened so far, which numbers each handle. Three sequences record the promises the source creates:

- `rounds`: every invocation of `#write`, with its payload and its `Phase`, i.e. the `await` it is suspended at;
- `groups`: every `#nextPromise`, pending or settled;
- `calls`: every external `write` call and the promise it follows.

Every `await` on I/O is a method: `OpenCompleted`, `LockCompleted`, `WriteCompleted`, `UnlockCompleted`, `CloseCompleted`. Each one takes the operation's result (`IoOk` or `IoFailed(fault)`) as a parameter. The end of a p-retry backoff is `LockRetry` or `UnlockRetry`. The resumption of the awaited chained `write` in the `finally` block is `ContinuationSettled`. Whoever calls these methods plays the scheduler, so every interleaving of submissions and I/O completions can be expressed as a sequence of calls. `Valid()` is the object invariant, and every method keeps it:

- each round keeps the faults of its failed attempts, and their number stays below p-retry's budget of 1 + 1000 attempts;
- a chained round waits on a later round;
- `next` and `nextData` are set together (payloads are never `null` here, so a pending payload is present exactly while a group is in the pending slot `next`);
- the pending group is the newest group, is unsettled, and is newer than `prev`.

p-retry decides after each failed attempt whether to retry (`RetryVerdict` in types.dfy). An `Error` that is not a TypeError is retried until 1001 attempts have failed; p-retry then rejects with the main error of the failures, the fault that occurred most often (`MainError`, characterised by `IsMainError`). A TypeError is passed on at once, and a thrown value that is not an `Error` is replaced at once by a TypeError of p-retry's own.

`StenoScenarios` (scenarios.dfy) has two kinds of method. Helpers such as `AcquireFresh`, `ReleaseAfterWrite`, `ExhaustLock`, `ExhaustUnlock` and `CoalesceWhileLocked` drive any writer that meets their preconditions through one step of a round. The scenarios create a fresh writer and drive it through a concrete schedule that holds for all payloads and faults. They state what callers and the file then show:

- a single write;
- repeated writes;
- coalescing with last-write-wins;
- writes that arrive before the lock is taken;
- lock and unlock timeouts;
- a failing chained round;
- two overlapping rounds that lose a coalesced group.

Consequences of the code that the scenarios make explicit:

- `#locked` becomes true only when `flock` succeeds (steno-custom.mjs:54). A `write` issued while a round is still opening or locking therefore starts a second round of its own. The two rounds may open two handles, and both may have a `writeFile` in flight at the same time (`WriteWhileOpening`, `WriteWhileLocking`).
- When p-retry gives up on the lock, the rejection is thrown before the `try` block (steno-custom.mjs:78), so the `finally` block does not run. `#prev` is not rejected, the waiter groups do not advance, and the opened handle stays cached and is reused by the next round (`LockTimeout`, `ChainedLockTimeout`).
- A write failure rejects `#prev` only when the thrown value is an `Error` instance (steno-custom.mjs:87). Otherwise the failing round does not settle that group. When no other round is in flight, as in `ChainedWriteFails`, it stays pending until some later round settles it.
- When p-retry gives up on the unlock, the round does not clear `#locked`. When no other round is in flight, as in `UnlockTimeout`, every later `write` is then only coalesced. A second round that releases the lock would clear it (steno-custom.mjs:71).
- When the handle has already been closed by another round, `flock(fd, 'un')` or `close` throws a TypeError (steno-custom.mjs:61, :37). p-retry does not retry it, so the round rejects with it at once and does not clear `#locked` itself (`UnlockIssued`, `CloseIssued`).
- The `finally` block copies the pending slot into `#prev` whatever `#prev` held (steno-custom.mjs:97-98). When two rounds overlap, the first to finish moves the pending group into `#prev` and chains a round for its payload; the second then overwrites `#prev` with the emptied slot. Nothing refers to that group any more, so its callers never settle, even after the chained round has written their payload (`OverlappingRoundsDropGroup`).
- A chained `this.write(nextData)` always starts a new round, because `#locked` was cleared in the same uninterrupted step. The model still dispatches it through `Dispatch`, as the source does.

## Model

| member | source | states |
|---|---|---|
| `WriterTypes.MainErrorIsMainError` | steno-custom.mjs:78 | the fault p-retry rejects with after the last attempt occurs among the failures, no fault occurs more often, and every fault after some occurrence of it occurs strictly less often (ties go to the fault whose last occurrence is latest) |
| `WriterTypes.MainErrorUnique` | steno-custom.mjs:78 | that characterisation picks at most one fault, so it defines the rejection of an exhausted p-retry run |
| `WriterTypes.MainErrorOfUniform` | steno-custom.mjs:94 | when every attempt failed with the same fault, p-retry rejects with that fault |
| `Steno.Writer.constructor` | steno-custom.mjs:8-17 | a new writer has no handle, is unlocked, has no previous or pending group and no pending payload, and leaves the file's content as it was |
| `Steno.Writer.Add` | steno-custom.mjs:19-29 | the pending payload becomes `data`, and only it is kept; the pending group is created only when none exists and is reused otherwise; the caller follows that group |
| `Steno.Writer.BeginRound` | steno-custom.mjs:76-78 | a new round for `data` starts its first lock attempt at once: it opens the file if no handle is cached, otherwise it issues `flock` on the cached handle |
| `Steno.Writer.Dispatch` | steno-custom.mjs:114-118 | while locked, `write` coalesces: no round starts, the pending payload becomes `data` and the caller follows the pending group; while unlocked, exactly one new round starts with `data` and the pending slot is untouched |
| `Steno.Writer.Write` | steno-custom.mjs:114-118 | the same dispatch for an external caller, whose promise is recorded; earlier calls are unchanged |
| `Steno.Writer.OpenCompleted` | steno-custom.mjs:32-34 | a successful open truncates the file and caches a fresh handle, replacing any cached one, then `flock` is issued; a failed open is a failed lock attempt, judged by p-retry |
| `Steno.Writer.LockCompleted` | steno-custom.mjs:42-56 | a successful `flock` sets `#locked` and issues `writeFile` on the cached handle (with no handle the write throws a TypeError, `#prev` is rejected and the unlock fails at once); a failure is recorded and backed off, or p-retry gives up and the round rejects without running `finally` |
| `Steno.Writer.LockRetry` | steno-custom.mjs:78 | after a backoff the next lock attempt starts, reusing a cached handle and keeping the earlier failures |
| `Steno.Writer.WriteCompleted` | steno-custom.mjs:79-94 | on success the file holds exactly the round's payload and `#prev` is resolved; on failure the file is unchanged, `#prev` is rejected only for an `Error`, and the fault is carried to be re-thrown; either way the unlock is issued, and with no handle it throws a TypeError that ends the round at once |
| `Steno.Writer.UnlockCompleted` | steno-custom.mjs:58-69 | a successful `flock(fd, 'un')` issues the close (a TypeError ending the round when no handle is left); a failure is recorded and backed off, or p-retry gives up and the round rejects with p-retry's rejection, which replaces any thrown write fault |
| `Steno.Writer.UnlockRetry` | steno-custom.mjs:94 | after a backoff the unlock is issued again; with no cached handle it throws a TypeError, which p-retry does not retry, so the round rejects with it and leaves `#locked` as it is |
| `Steno.Writer.CloseCompleted` | steno-custom.mjs:58-71 | a successful close clears the handle as `#closeFd` does and clears `#locked`, then the finally block goes on as `FinishFinally` states; a failed close is a failed unlock attempt, judged by p-retry |
| `Steno.Writer.FinishFinally` | steno-custom.mjs:97-103 | the pending group moves to `#prev` and the pending slot is emptied; then either the round settles (rejected if its write threw) or exactly one chained round starts with the pending payload and this round awaits it |
| `Steno.Writer.ContinuationSettled` | steno-custom.mjs:99-104 | a round that awaits its chained round settles once that round does: rejected with the chained fault if the chained round failed, otherwise as its own write did |
| `StenoScenarios.ExhaustLock` | steno-custom.mjs:78 | when every lock attempt fails with one fault, an I/O error is tried 1001 times and anything else once; the round rejects with that fault (a non-Error replaced by p-retry's TypeError), leaving the lock flag and every group untouched |
| `StenoScenarios.ExhaustUnlock` | steno-custom.mjs:94 | the same for the unlock: 1001 attempts for an I/O error, one otherwise, and the round rejects with that fault |
| `StenoScenarios.CoalesceWhileLocked` | steno-custom.mjs:19-29 | on any locked writer, any number of writes start no round; every one follows the same group (the pending one, or the one the first write creates); the pending payload is the last one; earlier calls are unchanged |
| `StenoScenarios.WriteToIdle` | steno-custom.mjs:114-118 | on a fresh writer whose open, lock, write, unlock and close each succeed at the first attempt, the caller resolves, the file holds exactly the payload, and the handle is closed and the lock released |
| `StenoScenarios.RepeatedWrites` | steno-custom.mjs:32-39 | n sequential writes of one payload leave the file holding it and resolve every caller; each round opens and closes its own handle (n opens, none left open) |
| `StenoScenarios.CoalescedWrites` | steno-custom.mjs:97-103 | with later writes coalesced into the first round, exactly one more round runs and it writes the last payload; every caller stays pending until that write lands, and then all resolve |
| `StenoScenarios.WriteWhileOpening` | steno-custom.mjs:43-54 | a write issued before the first round has locked starts a second round instead of coalescing; its open replaces the first round's cached handle |
| `StenoScenarios.WriteWhileLocking` | steno-custom.mjs:43-54 | a write issued between the first round's open and its `flock` reuses the handle, and both rounds end up with a `writeFile` in flight |
| `StenoScenarios.LockTimeout` | steno-custom.mjs:78 | when every lock attempt fails with one fault, 1001 attempts are made for an I/O error and one otherwise, and the caller is rejected with that fault; the file stays truncated, the handle stays open and unlocked, and the next write reuses it without opening |
| `StenoScenarios.ChainedWriteFails` | steno-custom.mjs:85-102 | a failure in the chained round rejects the earlier caller whose own write succeeded; the coalesced caller is rejected only for an `Error` fault |
| `StenoScenarios.ChainedLockTimeout` | steno-custom.mjs:76-103 | when the chained round's lock attempts all fail, the first caller is rejected, while the coalesced caller's group stays unsettled in `#prev` with no round in flight |
| `StenoScenarios.OverlappingRoundsDropGroup` | steno-custom.mjs:92-103 | when two rounds overlap and a third write is coalesced, the finally block of the second round to close empties `#prev` after the first has chained a round for the coalesced payload; the file ends up holding that payload, the first two callers resolve, every round has finished, and the coalesced caller stays pending with no group left in `#prev` or `next` |
| `StenoScenarios.UnlockTimeout` | steno-custom.mjs:58-71 | when every unlock attempt fails with one fault, 1001 attempts are made for an I/O error and one otherwise; with no other round in flight the caller is rejected, `#locked` stays true, and a later write is only coalesced and stays pending |

## Left out

- The file name and the real effects of `open(…, 'w')`, `flock` (fs-ext) and `writeFile` are not modelled. Each completion's success or failure is a parameter. `writeFile` on success replaces the whole content. Partial writes, file positions, and which handle a write lands on are not modelled.
- Cross-process mutual exclusion through the advisory lock is not modelled. Neither is the hazard that `open` truncates the file before the lock is held. Only the order is kept: a successful open empties `content` before `flock` is issued.
- p-retry's delays, jitter, `onFailedAttempt`, `maxRetryTime` and abort errors are not modelled; only the attempt budget and the verdict after each failure are. Its version is not fixed by steno-custom.mjs; the model follows p-retry 5 and 6, which reject an exhausted run with the `retry` package's main error. A fault stands for its error message, so faults that are equal have equal messages. TypeErrors that p-retry treats as network errors (and would retry) do not arise here: the only TypeErrors are the null-handle ones and p-retry's own.
- Promise scheduling is approximated. Code between two `await`s on I/O runs as one uninterrupted method call, and microtask ordering within it is not modelled. The handle is read where the source issues each operation. With no handle, `flock(fd, 'un')`, `close` and `writeFile` throw a TypeError (`NullHandle`). A `flock(fd, 'ex')` is issued right after `#getFd`, so it always has a handle.
- Payloads are byte sequences. `null` is not modelled: the source cannot tell a coalesced `null` from an empty pending slot (steno-custom.mjs:99), so it would leave a group pending with no chained round. Neither are `undefined` or strings, which `writeFile` encodes. The repository's own caller passes strings.
- Liveness is not modelled: nothing forces the scheduler to complete an operation or resume an awaiting round.
- test-cluster-write.mjs (the multi-process harness) and bench.mjs (the timing harness) are not part of this model.

=== FILE: scenarios.dfy ===
/**
 * What callers of `Writer.write` observe under given schedules. Each method
 * creates a writer over a file holding `initial`, drives it through one
 * interleaving of submissions and I/O results, and returns what a caller or
 * an observer of the file would see.
 */
module StenoScenarios {
  import opened WriterTypes
  import opened Steno

  /** Round `r`, just started on a closed handle, opens the file and takes the lock. */
  method AcquireFresh(w: Writer, r: nat)
    requires w.Valid() && r < |w.rounds| && w.rounds[r].phase == Opening([])
    modifies w`fd, w`opens, w`content, w`rounds, w`locked, w`groups
    ensures w.Valid()
    ensures w.fd == Some(old(w.opens)) && w.opens == old(w.opens) + 1 && w.content == []
    ensures w.locked && w.groups == old(w.groups)
    ensures w.rounds == old(w.rounds)[r := old(w.rounds[r]).(phase := Writing)]
  {
    w.OpenCompleted(r, IoOk);
    w.LockCompleted(r, IoOk);
  }

  /** Round `r` writes, unlocks and closes, each on the first attempt. */
  method ReleaseAfterWrite(w: Writer, r: nat)
    requires w.Valid() && r < |w.rounds| && w.rounds[r].phase == Writing && w.fd.Some?
    modifies w`content, w`groups, w`rounds, w`fd, w`locked, w`prev, w`next, w`nextData
    ensures w.Valid()
    ensures w.content == old(w.rounds[r].payload)
    ensures w.groups == SettleGroup(old(w.groups), old(w.prev), Resolved)
    ensures w.fd == None && !w.locked && w.prev == old(w.next) && w.next == None && w.nextData == None
    ensures old(w.nextData).None? ==>
      w.rounds == old(w.rounds)[r := old(w.rounds[r]).(phase := Finished(Resolved))]
    ensures old(w.nextData).Some? ==>
      w.rounds == old(w.rounds)[r := old(w.rounds[r]).(phase := Chained(None, OnRound(|old(w.rounds)|)))]
                  + [Round(old(w.nextData).value, Opening([]))]
  {
    w.WriteCompleted(r, IoOk);
    w.UnlockCompleted(r, IoOk);
    w.CloseCompleted(r, IoOk);
  }

  /**
   * Round `r`'s write fails with `f`; the unlock and the close then succeed
   * at the first attempt.
   */
  method ReleaseAfterFailedWrite(w: Writer, r: nat, f: Fault)
    requires w.Valid() && r < |w.rounds| && w.rounds[r].phase == Writing && w.fd.Some? && w.nextData.None?
    modifies w`content, w`groups, w`rounds, w`fd, w`locked, w`prev, w`next, w`nextData
    ensures w.Valid() && w.content == old(w.content)
    ensures w.groups == if IsErrorInstance(f) then SettleGroup(old(w.groups), old(w.prev), Rejected(f)) else old(w.groups)
    ensures w.fd == None && !w.locked && w.prev == None && w.next == None && w.nextData == None
    ensures w.rounds == old(w.rounds)[r := old(w.rounds[r]).(phase := Finished(Rejected(f)))]
  {
    w.WriteCompleted(r, IoFailed(f));
    w.UnlockCompleted(r, IoOk);
    w.CloseCompleted(r, IoOk);
  }

  /**
   * Every lock attempt of round `r` fails with `f`. p-retry retries an I/O
   * error until its attempts run out and gives up on any other fault at once.
   */
  method ExhaustLock(w: Writer, r: nat, f: Fault) returns (attempts: nat)
    requires w.Valid() && r < |w.rounds| && w.rounds[r].phase == Locking([]) && w.fd.Some?
    modifies w`locked, w`groups, w`rounds
    ensures w.Valid() && w.locked == old(w.locked) && w.groups == old(w.groups)
    ensures w.rounds == old(w.rounds)[r := old(w.rounds[r]).(phase := Finished(Rejected(RejectionForRepeated(f))))]
    ensures attempts == if f.IoError? then MaxAttempts else 1
  {
    var failed: seq<Fault> := [];
    while f.IoError? && |failed| + 1 < MaxAttempts
      invariant |failed| < MaxAttempts && forall k | 0 <= k < |failed| :: failed[k] == f
      invariant !f.IoError? ==> failed == []
      invariant w.Valid() && w.locked == old(w.locked) && w.groups == old(w.groups)
      invariant w.rounds == old(w.rounds)[r := old(w.rounds[r]).(phase := Locking(failed))]
    {
      w.LockCompleted(r, IoFailed(f));
      w.LockRetry(r);
      failed := failed + [f];
    }
    if f.IoError? {
      MainErrorOfUniform(failed + [f], f);
    }
    w.LockCompleted(r, IoFailed(f));
    attempts := |failed| + 1;
  }

  /**
   * Every unlock attempt of round `r` fails with `f`. p-retry retries an I/O
   * error until its attempts run out and gives up on any other fault at once.
   */
  method ExhaustUnlock(w: Writer, r: nat, f: Fault) returns (attempts: nat)
    requires w.Valid() && r < |w.rounds| && w.rounds[r].phase.Unlocking? && w.rounds[r].phase.failed == []
    requires w.fd.Some?
    modifies w`rounds
    ensures w.Valid()
    ensures w.rounds == old(w.rounds)[r := old(w.rounds[r]).(phase := Finished(Rejected(RejectionForRepeated(f))))]
    ensures attempts == if f.IoError? then MaxAttempts else 1
  {
    var thrown := w.rounds[r].phase.thrown;
    var failed: seq<Fault> := [];
    while f.IoError? && |failed| + 1 < MaxAttempts
      invariant |failed| < MaxAttempts && forall k | 0 <= k < |failed| :: failed[k] == f
      invariant !f.IoError? ==> failed == []
      invariant w.Valid()
      invariant w.rounds == old(w.rounds)[r := old(w.rounds[r]).(phase := Unlocking(failed, thrown))]
    {
      w.UnlockCompleted(r, IoFailed(f));
      w.UnlockRetry(r);
      failed := failed + [f];
    }
    if f.IoError? {
      MainErrorOfUniform(failed + [f], f);
    }
    w.UnlockCompleted(r, IoFailed(f));
    attempts := |failed| + 1;
  }

  /** `write(data)` while the writer is locked: the call is coalesced. */
  method WriteWhileLocked(w: Writer, data: Payload) returns (call: nat)
    requires w.Valid() && w.locked
    modifies w`nextData, w`next, w`groups, w`rounds, w`calls
    ensures w.Valid() && w.locked && w.rounds == old(w.rounds)
    ensures w.nextData == Some(data) && w.next.Some?
    ensures call == |old(w.calls)| && w.calls == old(w.calls) + [Call(data, OnGroup(w.next.value))]
    ensures old(w.next).Some? ==> w.next == old(w.next) && w.groups == old(w.groups)
    ensures old(w.next).None? ==> w.next == Some(|old(w.groups)|) && w.groups == old(w.groups) + [Pending]
  {
    call := w.Write(data);
    assert w.calls == old(w.calls) + [w.calls[call]];
  }

  /**
   * `a` starts round 0 on an idle writer with no history and `b` is coalesced
   * into it; round 0 then writes, unlocks and closes at the first attempt and
   * chains round 1 for `b`, which it awaits.
   */
  method CoalesceOneAndRelease(w: Writer, a: Payload, b: Payload) returns (ca: nat, cb: nat)
    requires w.Valid() && w.fd == None && !w.locked && w.prev == None && w.next == None
    requires w.nextData == None && w.groups == [] && w.rounds == [] && w.calls == []
    modifies w`fd, w`opens, w`content, w`rounds, w`locked, w`groups, w`nextData, w`next, w`calls, w`prev
    ensures w.Valid() && ca == 0 && cb == 1 && w.calls == [Call(a, OnRound(0)), Call(b, OnGroup(0))]
    ensures w.rounds == [Round(a, Chained(None, OnRound(1))), Round(b, Opening([]))]
    ensures w.content == a && w.fd == None && !w.locked && w.prev == Some(0)
    ensures w.next == None && w.nextData == None && w.groups == [Pending]
  {
    ca := w.Write(a);
    AcquireFresh(w, 0);
    cb := WriteWhileLocked(w, b);
    ReleaseAfterWrite(w, 0);
  }

  /**
   * The payloads of `later` are written one after another while the writer
   * is locked: no round starts, and every one of those calls follows the same
   * group, the pending one if there is one, else the one the first call creates.
   */
  method CoalesceWhileLocked(w: Writer, later: seq<Payload>) returns (targets: seq<Target>)
    requires w.Valid() && w.locked
    modifies w`nextData, w`next, w`groups, w`rounds, w`calls
    ensures w.Valid() && w.locked && w.rounds == old(w.rounds)
    ensures var g := if old(w.next).Some? then old(w.next).value else |old(w.groups)|;
      |targets| == |later| && (forall j | 0 <= j < |later| :: targets[j] == OnGroup(g)) &&
      |w.calls| == |old(w.calls)| + |later| && w.calls[..|old(w.calls)|] == old(w.calls) &&
      (forall j | |old(w.calls)| <= j < |w.calls| :: w.calls[j] == Call(later[j - |old(w.calls)|], OnGroup(g))) &&
      (|later| == 0 ==> w.next == old(w.next) && w.nextData == old(w.nextData) && w.groups == old(w.groups)) &&
      (|later| > 0 ==>
        w.next == Some(g) && w.nextData == Some(later[|later| - 1]) &&
        w.groups == if old(w.next).Some? then old(w.groups) else old(w.groups) + [Pending])
  {
    var n0 := |w.calls|;
    var g := if w.next.Some? then w.next.value else |w.groups|;
    var groupsAfter := if w.next.Some? then w.groups else w.groups + [Pending];
    var i := 0;
    targets := [];
    while i < |later|
      invariant 0 <= i <= |later|
      invariant w.Valid() && w.locked && w.rounds == old(w.rounds)
      invariant |w.calls| == n0 + i && w.calls[..n0] == old(w.calls)
      invariant forall j | n0 <= j < |w.calls| :: w.calls[j] == Call(later[j - n0], OnGroup(g))
      invariant i == 0 ==> w.next == old(w.next) && w.nextData == old(w.nextData) && w.groups == old(w.groups)
      invariant i > 0 ==> w.next == Some(g) && w.nextData == Some(later[i - 1]) && w.groups == groupsAfter
      invariant |targets| == i && forall j | 0 <= j < i :: targets[j] == OnGroup(g)
    {
      var c := WriteWhileLocked(w, later[i]);
      targets := targets + [w.calls[c].target];
      i := i + 1;
    }
  }

  /**
   * A write to a fresh writer whose open, lock, write, unlock and close each
   * succeed at the first attempt: its promise resolves, the file holds
   * exactly the payload, the handle is closed and the lock released.
   */
  method WriteToIdle(initial: Payload, p: Payload)
    returns (content: Payload, outcome: Settlement, handleOpen: bool, stillLocked: bool, opens: nat)
    ensures content == p && outcome == Settled(Resolved)
    ensures !handleOpen && !stillLocked && opens == 1
  {
    var w := new Writer(initial);
    var c := w.Write(p);
    AcquireFresh(w, 0);
    ReleaseAfterWrite(w, 0);
    content, outcome := w.content, w.CallSettlement(c);
    handleOpen, stillLocked, opens := w.fd.Some?, w.locked, w.opens;
  }

  /**
   * `n` writes of the same payload, each issued once the previous one has
   * settled: the file ends with that payload, every promise resolves, and
   * each round opens its own handle and closes it.
   */
  method RepeatedWrites(initial: Payload, p: Payload, n: nat)
    returns (content: Payload, outcomes: seq<Settlement>, opens: nat, handleOpen: bool)
    ensures content == (if n == 0 then initial else p)
    ensures |outcomes| == n && forall i | 0 <= i < n :: outcomes[i] == Settled(Resolved)
    ensures opens == n && !handleOpen
  {
    var w := new Writer(initial);
    var i := 0;
    while i < n
      invariant 0 <= i <= n
      invariant w.Valid() && w.fd == None && !w.locked
      invariant w.prev == None && w.next == None && w.nextData == None
      invariant |w.rounds| == i && |w.calls| == i && w.opens == i
      invariant forall j | 0 <= j < i :: w.rounds[j] == Round(p, Finished(Resolved))
      invariant forall j | 0 <= j < i :: w.calls[j] == Call(p, OnRound(j))
      invariant w.content == (if i == 0 then initial else p)
    {
      var c := w.Write(p);
      AcquireFresh(w, i);
      ReleaseAfterWrite(w, i);
      i := i + 1;
    }
    content, outcomes, opens, handleOpen := w.content, w.Outcomes(), w.opens, w.fd.Some?;
  }

  /**
   * On an idle writer with no history, `first` starts round 0, which takes
   * the lock at the first attempt; the payloads of `later` then arrive while
   * it holds the lock and are all coalesced into group 0.
   */
  method StartAndCoalesce(w: Writer, first: Payload, later: seq<Payload>) returns (targets: seq<Target>)
    requires w.Valid() && w.fd == None && !w.locked && w.prev == None && w.next == None
    requires w.nextData == None && w.groups == [] && w.rounds == [] && w.calls == []
    modifies w`fd, w`opens, w`content, w`rounds, w`locked, w`groups, w`nextData, w`next, w`calls
    ensures w.Valid() && w.fd.Some? && w.locked && w.prev == None && w.rounds == [Round(first, Writing)]
    ensures |w.calls| == |later| + 1 && w.calls[0].target == OnRound(0)
    ensures forall j | 1 <= j < |w.calls| :: w.calls[j].target == OnGroup(0)
    ensures |later| == 0 ==> w.next == None && w.nextData == None && w.groups == []
    ensures |later| > 0 ==> w.next == Some(0) && w.nextData == Some(later[|later| - 1]) && w.groups == [Pending]
    ensures |targets| == |later| && forall j | 0 <= j < |later| :: targets[j] == OnGroup(0)
  {
    var c0 := w.Write(first);
    AcquireFresh(w, 0);
    targets := CoalesceWhileLocked(w, later);
    assert w.calls[..1] == [Call(first, OnRound(0))];
  }

  /**
   * Round 0 writing `first` awaits the chained round 1 writing `last`, and
   * every call after the first follows group 0, now in `#prev`. Round 1 runs
   * with each operation succeeding at the first attempt; until its write
   * lands every caller is still waiting.
   */
  method CompleteChain(w: Writer, first: Payload, last: Payload) returns (waiting: seq<Settlement>)
    requires w.Valid() && w.rounds == [Round(first, Chained(None, OnRound(1))), Round(last, Opening([]))]
    requires w.fd == None && w.prev == Some(0) && w.next == None && w.nextData == None && w.groups == [Pending]
    requires |w.calls| > 0 && w.calls[0].target == OnRound(0)
    requires forall j | 1 <= j < |w.calls| :: w.calls[j].target == OnGroup(0)
    modifies w`fd, w`opens, w`content, w`rounds, w`locked, w`groups, w`prev, w`next, w`nextData
    ensures |waiting| == |w.calls| && forall j | 0 <= j < |waiting| :: waiting[j] == Pending
    ensures w.Valid() && w.content == last && w.groups == [Settled(Resolved)]
    ensures w.rounds == [Round(first, Finished(Resolved)), Round(last, Finished(Resolved))]
  {
    AcquireFresh(w, 1);
    waiting := w.Outcomes();
    ReleaseAfterWrite(w, 1);
    w.ContinuationSettled(0);
  }

  /**
   * `first` finds the writer idle; every payload of `later` arrives while
   * its round holds the lock. Only one more round runs, with the last of
   * them; all of the coalesced callers share one promise, which stays pending
   * until that round's write lands, and `first`'s caller resolves only once
   * that round has finished.
   */
  method CoalescedWrites(initial: Payload, first: Payload, later: seq<Payload>)
    returns (coalescedTargets: seq<Target>, firstWritten: Payload,
             waitingBeforeLastWrite: seq<Settlement>, payloads: seq<Payload>,
             outcomes: seq<Settlement>, content: Payload)
    ensures |coalescedTargets| == |later| && forall i | 0 <= i < |later| :: coalescedTargets[i] == OnGroup(0)
    ensures firstWritten == first
    ensures |later| == 0 ==> payloads == [first] && content == first
    ensures |later| > 0 ==> payloads == [first, later[|later| - 1]] && content == later[|later| - 1]
    ensures |later| > 0 ==>
      |waitingBeforeLastWrite| == |later| + 1 && forall i | 0 <= i <= |later| :: waitingBeforeLastWrite[i] == Pending
    ensures |outcomes| == |later| + 1 && forall i | 0 <= i <= |later| :: outcomes[i] == Settled(Resolved)
  {
    var w := new Writer(initial);
    coalescedTargets := StartAndCoalesce(w, first, later);
    ReleaseAfterWrite(w, 0);
    firstWritten := w.content;
    waitingBeforeLastWrite := [];
    if |later| > 0 {
      waitingBeforeLastWrite := CompleteChain(w, first, later[|later| - 1]);
    }
    payloads, outcomes, content := Payloads(w.rounds), w.Outcomes(), w.content;
  }

  /**
   * A second write issued while the first round is still opening the file:
   * `#locked` is still false, so it starts a round of its own instead of
   * being coalesced, and its open replaces the first round's handle.
   */
  method WriteWhileOpening(initial: Payload, a: Payload, b: Payload)
    returns (started: seq<Round>, pendingSlot: Option<Payload>, handle: Option<nat>, opens: nat)
    ensures started == [Round(a, Opening([])), Round(b, Opening([]))]
    ensures pendingSlot == None
    ensures opens == 2 && handle == Some(1)
  {
    var w := new Writer(initial);
    var ca := w.Write(a);
    var cb := w.Write(b);
    started, pendingSlot := w.rounds, w.nextData;
    w.OpenCompleted(0, IoOk);
    w.OpenCompleted(1, IoOk);
    handle, opens := w.fd, w.opens;
  }

  /**
   * A second write issued after the first round's open but before its flock
   * completes: it reuses the cached handle, and once both flocks succeed
   * both rounds have a writeFile in flight at the same time.
   */
  method WriteWhileLocking(initial: Payload, a: Payload, b: Payload)
    returns (phases: seq<Phase>, pendingSlot: Option<Payload>, opens: nat)
    ensures phases == [Writing, Writing]
    ensures pendingSlot == None && opens == 1
  {
    var w := new Writer(initial);
    var ca := w.Write(a);
    w.OpenCompleted(0, IoOk);
    var cb := w.Write(b);
    w.LockCompleted(0, IoOk);
    w.LockCompleted(1, IoOk);
    phases := [w.rounds[0].phase, w.rounds[1].phase];
    pendingSlot, opens := w.nextData, w.opens;
  }

  /**
   * `a` and `b` start two rounds that both take the lock on handle 0, as in
   * `WriteWhileLocking`, and `c` is then coalesced into group 0.
   */
  method OverlapAndCoalesce(w: Writer, a: Payload, b: Payload, c: Payload) returns (ca: nat, cb: nat, cc: nat)
    requires w.Valid() && w.fd == None && !w.locked && w.prev == None && w.next == None
    requires w.nextData == None && w.groups == [] && w.rounds == [] && w.calls == [] && w.opens == 0
    modifies w`fd, w`opens, w`content, w`rounds, w`locked, w`groups, w`nextData, w`next, w`calls
    ensures w.Valid() && ca == 0 && cb == 1 && cc == 2
    ensures w.calls == [Call(a, OnRound(0)), Call(b, OnRound(1)), Call(c, OnGroup(0))]
    ensures w.rounds == [Round(a, Writing), Round(b, Writing)]
    ensures w.fd == Some(0) && w.locked && w.prev == None && w.next == Some(0)
    ensures w.nextData == Some(c) && w.groups == [Pending]
  {
    ca := w.Write(a);
    w.OpenCompleted(0, IoOk);
    cb := w.Write(b);
    w.LockCompleted(0, IoOk);
    w.LockCompleted(1, IoOk);
    cc := WriteWhileLocked(w, c);
  }

  /**
   * Both overlapping rounds write, then both unlock and issue their close,
   * each at the first attempt; no group is settled, as `#prev` is empty.
   */
  method OverlapToClosing(w: Writer, a: Payload, b: Payload, c: Payload) returns (ca: nat, cb: nat, cc: nat)
    requires w.Valid() && w.fd == None && !w.locked && w.prev == None && w.next == None
    requires w.nextData == None && w.groups == [] && w.rounds == [] && w.calls == [] && w.opens == 0
    modifies w`fd, w`opens, w`content, w`rounds, w`locked, w`groups, w`nextData, w`next, w`calls
    ensures w.Valid() && ca == 0 && cb == 1 && cc == 2
    ensures w.calls == [Call(a, OnRound(0)), Call(b, OnRound(1)), Call(c, OnGroup(0))]
    ensures w.rounds == [Round(a, Closing([], None)), Round(b, Closing([], None))]
    ensures w.fd == Some(0) && w.locked && w.prev == None && w.next == Some(0)
    ensures w.nextData == Some(c) && w.groups == [Pending]
  {
    ca, cb, cc := OverlapAndCoalesce(w, a, b, c);
    w.WriteCompleted(0, IoOk);
    w.WriteCompleted(1, IoOk);
    w.UnlockCompleted(0, IoOk);
    w.UnlockCompleted(1, IoOk);
  }

  /**
   * Two overlapping rounds and a write coalesced while they hold the lock.
   * Round 0 closes first: its finally block moves group 0 into `#prev` and
   * chains round 2 for `c`. Round 1's finally block then moves the emptied
   * pending slot into `#prev`, so nothing refers to group 0 any more. Round 2
   * writes `c`, yet the caller of `c` is never settled, while the callers of
   * `a` and `b` resolve.
   */
  method OverlappingRoundsDropGroup(initial: Payload, a: Payload, b: Payload, c: Payload)
    returns (content: Payload, firstOutcome: Settlement, secondOutcome: Settlement,
             coalescedOutcome: Settlement, prevGroup: Option<nat>, pendingGroup: Option<nat>,
             allFinished: bool)
    ensures content == c && coalescedOutcome == Pending
    ensures firstOutcome == Settled(Resolved) && secondOutcome == Settled(Resolved)
    ensures prevGroup == None && pendingGroup == None && allFinished
  {
    var w := new Writer(initial);
    var ca, cb, cc := OverlapToClosing(w, a, b, c);
    w.CloseCompleted(0, IoOk);
    w.CloseCompleted(1, IoOk);
    AcquireFresh(w, 2);
    ReleaseAfterWrite(w, 2);
    w.ContinuationSettled(0);
    content, coalescedOutcome := w.content, w.CallSettlement(cc);
    firstOutcome, secondOutcome := w.CallSettlement(ca), w.CallSettlement(cb);
    prevGroup, pendingGroup := w.prev, w.next;
    allFinished := w.rounds[0].phase.Finished? && w.rounds[1].phase.Finished? && w.rounds[2].phase.Finished?;
  }

  /**
   * Every lock attempt fails with `f`: an I/O error is retried until 1001
   * attempts have failed, any other fault ends the retries at once, and the
   * caller's promise rejects with `f` (a non-Error value is replaced by
   * p-retry's TypeError). The failure happens before the try block,
   * so the handle opened (and the file truncated) by the first attempt stays
   * open, and the next write reuses it instead of opening again.
   */
  method LockTimeout(initial: Payload, p: Payload, q: Payload, f: Fault)
    returns (outcome: Settlement, attempts: nat, handleOpen: bool, stillLocked: bool, content: Payload,
             opens: nat, nextRoundPhase: Phase)
    ensures outcome == Settled(Rejected(RejectionForRepeated(f)))
    ensures attempts == if f.IoError? then MaxAttempts else 1
    ensures handleOpen && !stillLocked && content == [] && opens == 1
    ensures nextRoundPhase == Locking([])
  {
    var w := new Writer(initial);
    var c := w.Write(p);
    w.OpenCompleted(0, IoOk);
    attempts := ExhaustLock(w, 0, f);
    outcome := w.CallSettlement(c);
    handleOpen, stillLocked, content, opens := w.fd.Some?, w.locked, w.content, w.opens;
    var c2 := w.Write(q);
    nextRoundPhase := w.rounds[1].phase;
  }

  /**
   * `b` is coalesced into `a`'s round; the chained round that writes `b`
   * fails with `f`. `a`'s own write succeeded, yet its caller sees the
   * rejection through the awaited continuation; `b`'s caller sees it only
   * when `f` is an Error, and the file is left truncated.
   */
  method ChainedWriteFails(initial: Payload, a: Payload, b: Payload, f: Fault)
    returns (firstWritten: Payload, firstOutcome: Settlement, coalescedOutcome: Settlement,
             allFinished: bool, content: Payload)
    ensures firstWritten == a
    ensures firstOutcome == Settled(Rejected(f))
    ensures coalescedOutcome == if IsErrorInstance(f) then Settled(Rejected(f)) else Pending
    ensures allFinished && content == []
  {
    var w := new Writer(initial);
    var ca, cb := CoalesceOneAndRelease(w, a, b);
    firstWritten := w.content;
    AcquireFresh(w, 1);
    ReleaseAfterFailedWrite(w, 1, f);
    w.ContinuationSettled(0);
    firstOutcome, coalescedOutcome := w.CallSettlement(ca), w.CallSettlement(cb);
    allFinished := w.rounds[0].phase.Finished? && w.rounds[1].phase.Finished?;
    content := w.content;
  }

  /**
   * `b` is coalesced into `a`'s round, and every lock attempt of the chained
   * round that would write `b` fails. `a`'s caller is rejected, but `b`'s
   * group stays in `#prev` unsettled: no round is left in flight to settle
   * it, so `b`'s caller waits until some later write succeeds or fails.
   */
  method ChainedLockTimeout(initial: Payload, a: Payload, b: Payload, f: Fault)
    returns (firstOutcome: Settlement, coalescedOutcome: Settlement, allFinished: bool,
             prevGroup: Option<nat>, handleOpen: bool)
    ensures firstOutcome == Settled(Rejected(RejectionForRepeated(f)))
    ensures coalescedOutcome == Pending
    ensures allFinished && prevGroup == Some(0) && handleOpen
  {
    var w := new Writer(initial);
    var ca, cb := CoalesceOneAndRelease(w, a, b);
    w.OpenCompleted(1, IoOk);
    var attempts := ExhaustLock(w, 1, f);
    w.ContinuationSettled(0);
    firstOutcome, coalescedOutcome := w.CallSettlement(ca), w.CallSettlement(cb);
    allFinished := w.rounds[0].phase.Finished? && w.rounds[1].phase.Finished?;
    prevGroup, handleOpen := w.prev, w.fd.Some?;
  }

  /**
   * Every unlock attempt after a successful write fails with `f`: an I/O
   * error is retried until 1001 attempts have failed, any other fault ends
   * the retries at once, and the round rejects with `f` (a non-Error value
   * is replaced by p-retry's TypeError). No other round is in flight to
   * clear `#locked`, so it stays true and a later write is only coalesced:
   * no round is started for it and none is in flight.
   */
  method UnlockTimeout(initial: Payload, a: Payload, b: Payload, f: Fault)
    returns (firstOutcome: Settlement, attempts: nat, content: Payload, stillLocked: bool,
             laterTarget: Target, roundsStarted: nat, laterOutcome: Settlement)
    ensures firstOutcome == Settled(Rejected(RejectionForRepeated(f))) && content == a
    ensures attempts == if f.IoError? then MaxAttempts else 1
    ensures stillLocked && laterTarget == OnGroup(0) && roundsStarted == 1
    ensures laterOutcome == Pending
  {
    var w := new Writer(initial);
    var ca := w.Write(a);
    AcquireFresh(w, 0);
    w.WriteCompleted(0, IoOk);
    attempts := ExhaustUnlock(w, 0, f);
    firstOutcome, content := w.CallSettlement(ca), w.content;
    var cb := w.Write(b);
    stillLocked, laterTarget, roundsStarted := w.locked, w.calls[cb].target, |w.rounds|;
    laterOutcome := w.CallSettlement(cb);
  }
}

=== FILE: types.dfy ===
/**
 * Values shared by the write coordinator of steno-custom.mjs: payloads, the
 * faults a round can raise, promise outcomes, and the suspension point at
 * which each round currently waits.
 */
module WriterTypes {

  /** p-retry's `retries` option, used both for locking and for unlocking. */
  const Retries: nat := 1000

  /** p-retry runs one first attempt and then up to `Retries` more. */
  const MaxAttempts: nat := Retries + 1

  newtype Byte = b: int | 0 <= b < 256

  /** The bytes handed to `write(data)` and written verbatim to the file. */
  type Payload = seq<Byte>

  datatype Option<T> = None | Some(value: T)

  /**
   * What a failed operation throws. Two faults are equal exactly when their
   * messages are, which is how p-retry tells errors apart.
   */
  datatype Fault =
    | NullHandle                // the TypeError raised when `#fd` is null at a point that needs a handle
    | IoError(code: nat)        // an Error raised by open, flock, writeFile or close
    | NonError(code: nat)       // a thrown value that is not an `Error` instance
    | NonErrorThrown(code: nat) // the TypeError p-retry raises in place of a thrown `NonError(code)`

  predicate IsErrorInstance(f: Fault) {
    !f.NonError?
  }

  predicate IsTypeError(f: Fault) {
    f.NullHandle? || f.NonErrorThrown?
  }

  /** How a promise settles. */
  datatype Outcome = Resolved | Rejected(fault: Fault)

  datatype Settlement = Pending | Settled(outcome: Outcome)

  /** What the environment reports when an awaited I/O operation completes. */
  datatype IoResult = IoOk | IoFailed(fault: Fault)

  /**
   * The promise a caller follows: the promise of a round (`#write`) or the
   * shared promise of a waiter group (a `#nextPromise`), by number.
   */
  datatype Target = OnRound(round: nat) | OnGroup(group: nat)

  /**
   * Where one invocation of `#write` stands. `failed` lists the faults of the
   * earlier failed attempts of the current p-retry run, so the attempt under
   * way is number `|failed| + 1`; `thrown` is the error the try/catch block
   * re-throws, if any.
   */
  datatype Phase =
    | Opening(failed: seq<Fault>)                           // awaiting open(filename, 'w') in #getFd
    | Locking(failed: seq<Fault>)                           // awaiting flock(fd, 'ex')
    | LockBackoff(failed: seq<Fault>)                       // p-retry delay before the next lock attempt
    | Writing                                               // awaiting writeFile(fd, data)
    | Unlocking(failed: seq<Fault>, thrown: Option<Fault>)  // awaiting flock(fd, 'un')
    | Closing(failed: seq<Fault>, thrown: Option<Fault>)    // awaiting fd.close()
    | UnlockBackoff(failed: seq<Fault>, thrown: Option<Fault>)  // p-retry delay before the next unlock attempt
    | Chained(thrown: Option<Fault>, target: Target)        // awaiting this.write(nextData) in finally
    | Finished(outcome: Outcome)                            // the round's promise has settled

  /** One invocation of `#write` and the payload it writes. */
  datatype Round = Round(payload: Payload, phase: Phase)

  /** One external call of `write(data)` and the promise it returned. */
  datatype Call = Call(payload: Payload, target: Target)

  /**
   * The error the `retry` package reports for a run of failed attempts
   * (`mainError`): the fault that occurs most often, and among equally
   * frequent faults the one whose last occurrence comes latest.
   */
  function MainError(errs: seq<Fault>): Fault
    requires |errs| > 0
  {
    MainErrorFrom(errs, 0, errs[0], 0)
  }

  /**
   * The scan behind `MainError` from position `i` on, where `main` is the
   * choice so far and `mainCount` its number of occurrences in `errs[..i]`.
   */
  function MainErrorFrom(errs: seq<Fault>, i: nat, main: Fault, mainCount: nat): Fault
    requires i <= |errs|
    decreases |errs| - i
  {
    if i == |errs| then main
    else
      var count := multiset(errs[..i + 1])[errs[i]];
      if count >= mainCount then MainErrorFrom(errs, i + 1, errs[i], count)
      else MainErrorFrom(errs, i + 1, main, mainCount)
  }

  /**
   * `m` is the main error of `errs`: no fault occurs more often, and every
   * fault after some occurrence of `m` occurs strictly less often than `m`.
   */
  ghost predicate IsMainError(errs: seq<Fault>, m: Fault) {
    exists j :: MainErrorAt(errs, m, j)
  }

  /** `m` is the main error of `errs`, and its occurrence at `j` shows it. */
  ghost predicate MainErrorAt(errs: seq<Fault>, m: Fault, j: int) {
    0 <= j < |errs| && errs[j] == m &&
    (forall g :: multiset(errs)[g] <= multiset(errs)[m]) &&
    forall k | j < k < |errs| :: multiset(errs)[errs[k]] < multiset(errs)[m]
  }

  /** At most one fault is the main error of a run of failures. */
  lemma MainErrorUnique(errs: seq<Fault>, m1: Fault, m2: Fault)
    requires IsMainError(errs, m1) && IsMainError(errs, m2)
    ensures m1 == m2
  {
    var j1 :| MainErrorAt(errs, m1, j1);
    var j2 :| MainErrorAt(errs, m2, j2);
    // a later occurrence of either would make it strictly less frequent than the other
    assert !(j1 < j2) && !(j2 < j1);
  }

  /** `MainError` picks the main error, which is therefore one of the faults. */
  lemma MainErrorIsMainError(errs: seq<Fault>)
    requires |errs| > 0
    ensures IsMainError(errs, MainError(errs))
    ensures MainError(errs) in errs
  {
    var j := MainErrorFromIsMainError(errs, 0, errs[0], 0, 0);
  }

  /** When every attempt failed with the same fault, that fault is the main error. */
  lemma MainErrorOfUniform(errs: seq<Fault>, f: Fault)
    requires |errs| > 0 && forall k | 0 <= k < |errs| :: errs[k] == f
    ensures MainError(errs) == f
  {
    MainErrorIsMainError(errs);
  }

  lemma {:induction false} MainErrorFromIsMainError(errs: seq<Fault>, i: nat, main: Fault, mainCount: nat, at: int)
      returns (j: int)
    requires 0 < |errs| && i <= |errs|
    requires i == 0 ==> mainCount == 0
    requires i > 0 ==> MainErrorAt(errs[..i], main, at) && mainCount == multiset(errs[..i])[main]
    ensures MainErrorAt(errs, MainErrorFrom(errs, i, main, mainCount), j)
    decreases |errs| - i
  {
    if i == |errs| {
      assert errs[..i] == errs;
      j := at;
    } else {
      var main', count', at' := ScanStep(errs, i, main, mainCount, at);
      j := MainErrorFromIsMainError(errs, i + 1, main', count', at');
    }
  }

  /** One step of the scan keeps its choice the main error of the faults seen so far. */
  lemma ScanStep(errs: seq<Fault>, i: nat, main: Fault, mainCount: nat, at: int)
      returns (main': Fault, count': nat, at': int)
    requires i < |errs|
    requires i == 0 ==> mainCount == 0
    requires i > 0 ==> MainErrorAt(errs[..i], main, at) && mainCount == multiset(errs[..i])[main]
    ensures MainErrorAt(errs[..i + 1], main', at') && count' == multiset(errs[..i + 1])[main']
    ensures MainErrorFrom(errs, i, main, mainCount) == MainErrorFrom(errs, i + 1, main', count')
  {
    if multiset(errs[..i + 1])[errs[i]] >= mainCount {
      ScanAdopts(errs, i, main, mainCount, at);
      main', count', at' := errs[i], multiset(errs[..i + 1])[errs[i]], i;
    } else {
      ScanKeeps(errs, i, main, mainCount, at);
      main', count', at' := main, mainCount, at;
    }
  }

  /** A fault that reaches the count of the current choice becomes the main error. */
  lemma ScanAdopts(errs: seq<Fault>, i: nat, main: Fault, mainCount: nat, at: int)
    requires i < |errs|
    requires i == 0 ==> mainCount == 0
    requires i > 0 ==> MainErrorAt(errs[..i], main, at) && mainCount == multiset(errs[..i])[main]
    requires multiset(errs[..i + 1])[errs[i]] >= mainCount
    ensures MainErrorAt(errs[..i + 1], errs[i], i)
  {
    var pre, pre', x := errs[..i], errs[..i + 1], errs[i];
    assert pre' == pre + [x];
    assert multiset(pre') == multiset(pre) + multiset{x};
    forall g
      ensures multiset(pre')[g] <= multiset(pre')[x]
    {
      if g != x && i > 0 {
        assert multiset(pre)[g] <= multiset(pre)[main];
      }
    }
  }

  /** A fault that stays below the count of the current choice leaves the choice as it is. */
  lemma ScanKeeps(errs: seq<Fault>, i: nat, main: Fault, mainCount: nat, at: int)
    requires 0 < i < |errs|
    requires MainErrorAt(errs[..i], main, at) && mainCount == multiset(errs[..i])[main]
    requires multiset(errs[..i + 1])[errs[i]] < mainCount
    ensures MainErrorAt(errs[..i + 1], main, at) && multiset(errs[..i + 1])[main] == mainCount
  {
    var pre, pre', x := errs[..i], errs[..i + 1], errs[i];
    assert pre' == pre + [x];
    assert multiset(pre') == multiset(pre) + multiset{x};
    assert main != x;
    forall g
      ensures multiset(pre')[g] <= mainCount
    {
      assert multiset(pre)[g] <= multiset(pre)[main];
    }
    forall k | at < k < |pre'|
      ensures multiset(pre')[pre'[k]] < mainCount
    {
      if k < i {
        assert pre'[k] == pre[k];
      }
    }
    assert pre'[at] == main;
  }

  /** What p-retry does after an attempt fails. */
  datatype Verdict = Retry(failed: seq<Fault>) | GiveUp(fault: Fault)

  /**
   * p-retry's decision on an attempt that failed with `f` after the failures
   * `failed`: a non-Error value is turned into a TypeError and a TypeError is
   * passed on, both without retrying; any other fault is retried while
   * attempts remain, and after the last attempt p-retry rejects with the
   * main error of all the failures.
   */
  function RetryVerdict(failed: seq<Fault>, f: Fault): Verdict {
    if f.NonError? then GiveUp(NonErrorThrown(f.code))
    else if IsTypeError(f) then GiveUp(f)
    else if |failed| + 1 < MaxAttempts then Retry(failed + [f])
    else GiveUp(MainError(failed + [f]))
  }

  /** The fault p-retry rejects with when every attempt fails with `f`. */
  function RejectionForRepeated(f: Fault): Fault {
    if f.NonError? then NonErrorThrown(f.code) else f
  }

  /**
   * The synchronous start of a #lockFile attempt: #getFd opens only when no
   * handle is cached, otherwise flock is issued on the cached one at once.
   */
  function AttemptStart(fd: Option<nat>, failed: seq<Fault>): Phase {
    if fd.Some? then Locking(failed) else Opening(failed)
  }

  /** A failed lock attempt: p-retry backs off, or gives up and the round rejects. */
  function AfterLockFailure(failed: seq<Fault>, f: Fault): Phase {
    match RetryVerdict(failed, f)
    case Retry(fs) => LockBackoff(fs)
    case GiveUp(e) => Finished(Rejected(e))
  }

  /**
   * A failed unlock attempt: p-retry backs off, or gives up; the finally block
   * then throws p-retry's rejection, which replaces whatever the try block threw.
   */
  function AfterUnlockFailure(failed: seq<Fault>, thrown: Option<Fault>, f: Fault): Phase {
    match RetryVerdict(failed, f)
    case Retry(fs) => UnlockBackoff(fs, thrown)
    case GiveUp(e) => Finished(Rejected(e))
  }

  /**
   * Issuing flock(fd, 'un'): with no handle the attempt throws a TypeError,
   * which p-retry does not retry.
   */
  function UnlockIssued(fd: Option<nat>, failed: seq<Fault>, thrown: Option<Fault>): Phase {
    if fd.Some? then Unlocking(failed, thrown) else AfterUnlockFailure(failed, thrown, NullHandle)
  }

  /**
   * Issuing fd.close() inside #unlockFile: with no handle the attempt throws
   * a TypeError, which p-retry does not retry.
   */
  function CloseIssued(fd: Option<nat>, failed: seq<Fault>, thrown: Option<Fault>): Phase {
    if fd.Some? then Closing(failed, thrown) else AfterUnlockFailure(failed, thrown, NullHandle)
  }

  /**
   * Issuing writeFile(fd, data) once the lock is held: with no handle the
   * write fails with a TypeError and the round goes on to unlock.
   */
  function WriteIssued(fd: Option<nat>): Phase {
    if fd.Some? then Writing else UnlockIssued(fd, [], Some(NullHandle))
  }

  /** How `#write` settles when its finally block completes normally. */
  function Completion(thrown: Option<Fault>): Outcome {
    if thrown.Some? then Rejected(thrown.value) else Resolved
  }

  /**
   * How `#write` settles once the awaited chained write settles: a rejection
   * there escapes the finally block and replaces the round's own completion.
   */
  function AfterContinuation(thrown: Option<Fault>, awaited: Outcome): Outcome {
    if awaited.Rejected? then awaited else Completion(thrown)
  }

  /** Calling a resolver of group `prev`; a promise that has settled ignores it. */
  function SettleGroup(groups: seq<Settlement>, prev: Option<nat>, o: Outcome): seq<Settlement> {
    if prev.Some? && prev.value < |groups| && groups[prev.value].Pending?
    then groups[prev.value := Settled(o)]
    else groups
  }

  /** The payload of each round, in order of start. */
  function Payloads(rs: seq<Round>): seq<Payload> {
    seq(|rs|, i requires 0 <= i < |rs| => rs[i].payload)
  }
}

=== FILE: writer.dfy ===
/**
 * The `Writer` class of steno-custom.mjs: a write coordinator for one file
 * that takes a cross-process lock around each write and coalesces the
 * writes that arrive while the file is locked.
 *
 * Each `await` of the source is a point where other callers may run. Here
 * every such point is a method: the caller of the model is the scheduler,
 * and each method that completes an I/O operation receives its result as a
 * parameter. The fields are the source's private fields; `rounds`, `groups`
 * and `calls` record the promises the source creates.
 */
module Steno {
  import opened WriterTypes

  class Writer {
    /** The bytes of the destination file. */
    var content: Payload
    /** `#fd`: the open handle, by the number of the open that produced it. */
    var fd: Option<nat>
    /** How many handles have been opened so far. */
    var opens: nat
    /** `#locked`. */
    var locked: bool
    /** `#prev`: the resolver pair of a waiter group, by group number. */
    var prev: Option<nat>
    /** `#next` together with `#nextPromise`: the source always sets and clears them together. */
    var next: Option<nat>
    /** `#nextData`. */
    var nextData: Option<Payload>
    /** Every `#nextPromise` created so far and how it has settled. */
    var groups: seq<Settlement>
    /** Every invocation of `#write` so far, in order of start. */
    var rounds: seq<Round>
    /** Every external call of `write` so far, in order. */
    var calls: seq<Call>

    ghost predicate Valid()
      reads this
    {
      (forall i | 0 <= i < |rounds| :: PhaseOk(rounds[i].phase, i, |rounds|, |groups|)) &&
      (forall c | 0 <= c < |calls| :: TargetOk(calls[c].target, |rounds|, |groups|)) &&
      (prev.Some? ==> prev.value < |groups|) &&
      // #add sets #nextData and #nextPromise together; the finally block clears both
      (next.Some? <==> nextData.Some?) &&
      // the pending group is the newest one, not yet settled, and newer than #prev
      (next.Some? ==>
        next.value == |groups| - 1 && groups[next.value] == Pending &&
        (prev.Some? ==> prev.value < next.value))
    }

    /** A phase of round `i` among `n` rounds and `ng` groups; a chained round waits on a later round. */
    static predicate PhaseOk(p: Phase, i: nat, n: nat, ng: nat) {
      match p
      case Opening(fs) => |fs| < MaxAttempts
      case Locking(fs) => |fs| < MaxAttempts
      case LockBackoff(fs) => |fs| < MaxAttempts
      case Writing => true
      case Unlocking(fs, _) => |fs| < MaxAttempts
      case Closing(fs, _) => |fs| < MaxAttempts
      case UnlockBackoff(fs, _) => |fs| < MaxAttempts
      case Chained(_, t) => (t.OnRound? ==> i < t.round < n) && (t.OnGroup? ==> t.group < ng)
      case Finished(_) => true
    }

    static predicate TargetOk(t: Target, n: nat, ng: nat) {
      match t
      case OnRound(r) => r < n
      case OnGroup(g) => g < ng
    }

    /** `new Writer(filename)`: the file already holds `initial`; no handle is open yet. */
    constructor (initial: Payload)
      ensures Valid()
      ensures content == initial && fd == None && opens == 0 && !locked
      ensures prev == None && next == None && nextData == None
      ensures groups == [] && rounds == [] && calls == []
    {
      content := initial;
      fd := None;
      opens := 0;
      locked := false;
      prev := None;
      next := None;
      nextData := None;
      groups := [];
      rounds := [];
      calls := [];
    }

    /** How the promise `t` has settled so far. */
    function SettlementOf(t: Target): Settlement
      reads this
    {
      match t
      case OnRound(r) =>
        if r < |rounds| && rounds[r].phase.Finished? then Settled(rounds[r].phase.outcome) else Pending
      case OnGroup(g) =>
        if g < |groups| then groups[g] else Pending
    }

    /** How the promise returned by external call `c` has settled so far. */
    function CallSettlement(c: nat): Settlement
      reads this
      requires c < |calls|
    {
      SettlementOf(calls[c].target)
    }

    /** How every external call's promise has settled so far, in call order. */
    function Outcomes(): seq<Settlement>
      reads this
    {
      seq(|calls|, c requires 0 <= c < |calls| reads this => CallSettlement(c))
    }

    /**
     * `#add(data)`: keep only the latest payload and follow the pending group,
     * creating it only when none exists.
     */
    method Add(data: Payload) returns (g: nat)
      requires Valid()
      modifies this`nextData, this`next, this`groups
      ensures Valid()
      ensures nextData == Some(data) && next == Some(g)
      ensures old(next).Some? ==> g == old(next).value && groups == old(groups)
      ensures old(next).None? ==> g == |old(groups)| && groups == old(groups) + [Pending]
    {
      nextData := Some(data);
      if next.None? {
        groups := groups + [Pending];
        next := Some(|groups| - 1);
      }
      g := next.value;
    }

    /**
     * Entry of `#write(data)` up to its first suspension: p-retry starts the
     * first #lockFile attempt at once.
     */
    method BeginRound(data: Payload) returns (r: nat)
      requires Valid()
      modifies this`rounds
      ensures Valid()
      ensures r == |old(rounds)| && rounds == old(rounds) + [Round(data, AttemptStart(fd, []))]
    {
      rounds := rounds + [Round(data, AttemptStart(fd, []))];
      r := |rounds| - 1;
    }

    /** The body of `write(data)`: coalesce while locked, otherwise start a round. */
    method Dispatch(data: Payload) returns (t: Target)
      requires Valid()
      modifies this`nextData, this`next, this`groups, this`rounds
      ensures Valid()
      ensures old(locked) ==>
        rounds == old(rounds) && nextData == Some(data) && next.Some? && t == OnGroup(next.value) &&
        (old(next).Some? ==> next == old(next) && groups == old(groups)) &&
        (old(next).None? ==> next == Some(|old(groups)|) && groups == old(groups) + [Pending])
      ensures !old(locked) ==>
        t == OnRound(|old(rounds)|) && rounds == old(rounds) + [Round(data, AttemptStart(fd, []))] &&
        nextData == old(nextData) && next == old(next) && groups == old(groups)
    {
      if locked {
        var g := Add(data);
        t := OnGroup(g);
      } else {
        var r := BeginRound(data);
        t := OnRound(r);
      }
    }

    /** `write(data)` called from outside; `call` numbers the returned promise. */
    method Write(data: Payload) returns (call: nat)
      requires Valid()
      modifies this`nextData, this`next, this`groups, this`rounds, this`calls
      ensures Valid()
      ensures call == |old(calls)| && |calls| == call + 1 && calls[..call] == old(calls)
      ensures calls[call].payload == data
      ensures old(locked) ==>
        rounds == old(rounds) && nextData == Some(data) && next.Some? &&
        calls[call].target == OnGroup(next.value) &&
        (old(next).Some? ==> next == old(next) && groups == old(groups)) &&
        (old(next).None? ==> next == Some(|old(groups)|) && groups == old(groups) + [Pending])
      ensures !old(locked) ==>
        calls[call].target == OnRound(|old(rounds)|) &&
        rounds == old(rounds) + [Round(data, AttemptStart(fd, []))] &&
        nextData == old(nextData) && next == old(next) && groups == old(groups)
    {
      var t := Dispatch(data);
      calls := calls + [Call(data, t)];
      call := |calls| - 1;
    }

    /**
     * The open() awaited by #getFd completes. Opening with flag 'w'
     * truncates the file; the new handle replaces `#fd` whatever it holds now.
     */
    method OpenCompleted(r: nat, res: IoResult)
      requires Valid() && r < |rounds| && rounds[r].phase.Opening?
      modifies this`fd, this`opens, this`content, this`rounds
      ensures Valid()
      ensures res.IoOk? ==>
        fd == Some(old(opens)) && opens == old(opens) + 1 && content == [] &&
        rounds == old(rounds)[r := old(rounds[r]).(phase := Locking(old(rounds[r].phase.failed)))]
      ensures res.IoFailed? ==>
        fd == old(fd) && opens == old(opens) && content == old(content) &&
        rounds == old(rounds)[r := old(rounds[r]).(phase := AfterLockFailure(old(rounds[r].phase.failed), res.fault))]
    {
      var fs := rounds[r].phase.failed;
      if res.IoOk? {
        fd := Some(opens);
        opens := opens + 1;
        content := [];
        rounds := rounds[r := rounds[r].(phase := Locking(fs))];
      } else {
        rounds := rounds[r := rounds[r].(phase := AfterLockFailure(fs, res.fault))];
      }
    }

    /**
     * flock(fd, 'ex') completes. On success `#locked` becomes true and the
     * round issues writeFile on the current `#fd`; on failure p-retry backs
     * off or gives up, and giving up throws before the try block, so nothing
     * of the finally block runs.
     */
    method LockCompleted(r: nat, res: IoResult)
      requires Valid() && r < |rounds| && rounds[r].phase.Locking?
      modifies this`locked, this`groups, this`rounds
      ensures Valid()
      ensures res.IoOk? ==>
        locked &&
        groups == (if fd.Some? then old(groups) else SettleGroup(old(groups), prev, Rejected(NullHandle))) &&
        rounds == old(rounds)[r := old(rounds[r]).(phase := WriteIssued(fd))]
      ensures res.IoFailed? ==>
        locked == old(locked) && groups == old(groups) &&
        rounds == old(rounds)[r := old(rounds[r]).(phase := AfterLockFailure(old(rounds[r].phase.failed), res.fault))]
    {
      var fs := rounds[r].phase.failed;
      if res.IoOk? {
        locked := true;
        if fd.None? {
          groups := SettleGroup(groups, prev, Rejected(NullHandle));
        }
        rounds := rounds[r := rounds[r].(phase := WriteIssued(fd))];
      } else {
        rounds := rounds[r := rounds[r].(phase := AfterLockFailure(fs, res.fault))];
      }
    }

    /** p-retry's delay before the next lock attempt ends; #lockFile runs again. */
    method LockRetry(r: nat)
      requires Valid() && r < |rounds| && rounds[r].phase.LockBackoff?
      modifies this`rounds
      ensures Valid()
      ensures rounds == old(rounds)[r := old(rounds[r]).(phase := AttemptStart(fd, old(rounds[r].phase.failed)))]
    {
      rounds := rounds[r := rounds[r].(phase := AttemptStart(fd, rounds[r].phase.failed))];
    }

    /**
     * writeFile completes. Success replaces the file's content with the
     * round's payload and resolves the group in `#prev`; a failure rejects it
     * only when the thrown value is an Error, and is re-thrown after finally.
     * Either way the finally block starts by issuing the unlock.
     */
    method WriteCompleted(r: nat, res: IoResult)
      requires Valid() && r < |rounds| && rounds[r].phase.Writing?
      modifies this`content, this`groups, this`rounds
      ensures Valid()
      ensures res.IoOk? ==>
        content == old(rounds[r].payload) &&
        groups == SettleGroup(old(groups), prev, Resolved) &&
        rounds == old(rounds)[r := old(rounds[r]).(phase := UnlockIssued(fd, [], None))]
      ensures res.IoFailed? ==>
        content == old(content) &&
        groups == (if IsErrorInstance(res.fault) then SettleGroup(old(groups), prev, Rejected(res.fault)) else old(groups)) &&
        rounds == old(rounds)[r := old(rounds[r]).(phase := UnlockIssued(fd, [], Some(res.fault)))]
    {
      if res.IoOk? {
        content := rounds[r].payload;
        groups := SettleGroup(groups, prev, Resolved);
        rounds := rounds[r := rounds[r].(phase := UnlockIssued(fd, [], None))];
      } else {
        if IsErrorInstance(res.fault) {
          groups := SettleGroup(groups, prev, Rejected(res.fault));
        }
        rounds := rounds[r := rounds[r].(phase := UnlockIssued(fd, [], Some(res.fault)))];
      }
    }

    /** flock(fd, 'un') completes; on success #unlockFile goes on to close the handle. */
    method UnlockCompleted(r: nat, res: IoResult)
      requires Valid() && r < |rounds| && rounds[r].phase.Unlocking?
      modifies this`rounds
      ensures Valid()
      ensures var p := old(rounds[r].phase);
        rounds == old(rounds)[r := old(rounds[r]).(phase :=
          if res.IoOk? then CloseIssued(fd, p.failed, p.thrown)
          else AfterUnlockFailure(p.failed, p.thrown, res.fault))]
    {
      var p := rounds[r].phase;
      if res.IoOk? {
        rounds := rounds[r := rounds[r].(phase := CloseIssued(fd, p.failed, p.thrown))];
      } else {
        rounds := rounds[r := rounds[r].(phase := AfterUnlockFailure(p.failed, p.thrown, res.fault))];
      }
    }

    /** p-retry's delay before the next unlock attempt ends; #unlockFile runs again. */
    method UnlockRetry(r: nat)
      requires Valid() && r < |rounds| && rounds[r].phase.UnlockBackoff?
      modifies this`rounds
      ensures Valid()
      ensures var p := old(rounds[r].phase);
        rounds == old(rounds)[r := old(rounds[r]).(phase := UnlockIssued(fd, p.failed, p.thrown))]
    {
      var p := rounds[r].phase;
      rounds := rounds[r := rounds[r].(phase := UnlockIssued(fd, p.failed, p.thrown))];
    }

    /**
     * close() completes. On success #closeFd clears `#fd`, #unlockFile clears
     * `#locked`, and the rest of the finally block runs without suspending.
     */
    method CloseCompleted(r: nat, res: IoResult)
      requires Valid() && r < |rounds| && rounds[r].phase.Closing?
      modifies this`fd, this`locked, this`prev, this`next, this`nextData, this`groups, this`rounds
      ensures Valid()
      ensures groups == old(groups)
      ensures res.IoOk? ==>
        var thrown := old(rounds[r].phase.thrown);
        fd == None && !locked && prev == old(next) && next == None && nextData == None &&
        (old(nextData).None? ==>
          rounds == old(rounds)[r := old(rounds[r]).(phase := Finished(Completion(thrown)))]) &&
        (old(nextData).Some? ==>
          rounds == old(rounds)[r := old(rounds[r]).(phase := Chained(thrown, OnRound(|old(rounds)|)))]
                    + [Round(old(nextData).value, Opening([]))])
      ensures res.IoFailed? ==>
        var p := old(rounds[r].phase);
        fd == old(fd) && locked == old(locked) && prev == old(prev) && next == old(next) &&
        nextData == old(nextData) &&
        rounds == old(rounds)[r := old(rounds[r]).(phase := AfterUnlockFailure(p.failed, p.thrown, res.fault))]
    {
      if res.IoOk? {
        fd := None;
        locked := false;
        FinishFinally(r);
      } else {
        var p := rounds[r].phase;
        rounds := rounds[r := rounds[r].(phase := AfterUnlockFailure(p.failed, p.thrown, res.fault))];
      }
    }

    /**
     * The rest of the finally block once the unlock has succeeded: the
     * pending group becomes `#prev`, the pending slot is emptied, and a
     * pending payload is handed to `write`, whose round this one then awaits;
     * with no pending payload the round settles, rejected if its write threw.
     */
    method FinishFinally(r: nat)
      requires Valid() && r < |rounds| && rounds[r].phase.Closing? && !locked
      modifies this`prev, this`next, this`nextData, this`groups, this`rounds
      ensures Valid()
      ensures groups == old(groups) && prev == old(next) && next == None && nextData == None
      ensures var thrown := old(rounds[r].phase.thrown);
        (old(nextData).None? ==>
          rounds == old(rounds)[r := old(rounds[r]).(phase := Finished(Completion(thrown)))]) &&
        (old(nextData).Some? ==>
          rounds == old(rounds)[r := old(rounds[r]).(phase := Chained(thrown, OnRound(|old(rounds)|)))]
                    + [Round(old(nextData).value, AttemptStart(fd, []))])
    {
      var thrown := rounds[r].phase.thrown;
      prev := next;
      next := None;
      if nextData.Some? {
        var d := nextData.value;
        nextData := None;
        var t := Dispatch(d);
        rounds := rounds[r := rounds[r].(phase := Chained(thrown, t))];
      } else {
        rounds := rounds[r := rounds[r].(phase := Finished(Completion(thrown)))];
      }
    }

    /** The chained write awaited in the finally block has settled; this round settles too. */
    method ContinuationSettled(r: nat)
      requires Valid() && r < |rounds| && rounds[r].phase.Chained?
      requires SettlementOf(rounds[r].phase.target).Settled?
      modifies this`rounds
      ensures Valid()
      ensures var p := old(rounds[r].phase);
        rounds == old(rounds)[r := old(rounds[r]).(phase :=
          Finished(AfterContinuation(p.thrown, old(SettlementOf(p.target)).outcome)))]
    {
      var p := rounds[r].phase;
      var o := SettlementOf(p.target).outcome;
      rounds := rounds[r := rounds[r].(phase := Finished(AfterContinuation(p.thrown, o)))];
    }
  }
}
